=== FILE: README.md ===
# FeedbackKit, modelled in Dafny

FeedbackKit is an in-app feedback widget for iOS. A two-finger long press, or a
call to `Feedback.show`, is meant to open a popup over the current screen (in this
revision it never does; see below). The popup holds a
screenshot, a comment field, a reporter field and a category picker. On submit, the
widget assembles a `SendInformation` report. It then either fills the platform mail
composer from an `EmailConfig` or hands the report to a custom action supplied by
the caller. Either way, the flow ends by dismissing the popup and then calling the
caller's `dismissed` callback.

This project models the decision logic under the UIKit plumbing as pure functions
over immutable datatypes. UI calls become abstract effect values. Images, PNG data,
views and closures become opaque values.

| file | module | models |
|---|---|---|
| optionals.dfy | `Optionals` | Swift's `T?` |
| optional_order.dfy | `OptionalOrder` | the file-private `<` on optionals |
| report.dfy | `Report` | `SendInformation`, `feedbackBodyMessage`, `captureImageData`, and a reader for the body |
| picker.dfy | `Picker` | the six-row category picker |
| trimming.dfy | `Trimming` | trimming white space and line breaks, over an abstract character class |
| form.dfy | `Form` | `tapSendButton` |
| report_class.dfy | `ReportClass` | `searchReportClass` and `getReportClassName` over a controller tree |
| parent_view.dfy | `ParentView` | `getParentView` and its cache |
| popup.dfy | `Popup` | instantiation, present, popup attachment, dismiss, and the `FeedbackUseState.using` guard |
| keyboard.dfy | `Keyboard` | the `isKeyboardObserving` guard on appear and disappear |
| email_config.dfy | `EmailConfigs` | the two `EmailConfig` initialisers |
| mail.dfy | `Mail` | `FeedbackMail.send` and the composer result handler |
| facade.dfy | `Facade` | `Feedback.show`, the email and custom routes, and their completions |
| gesture.dfy | `Gesture` | `addDoubleLongPressGestureRecognizer` and `GestureFeedback.pressGesture` |

Abstracted inputs:
- Whether the storyboard exists, and whether its initial controller casts to a
  FeedbackViewController, is one `Option<Storyboard>`. The cache that
  `instantiateInitialViewController` reads, `FeedbackKitStatic.storyboard`
  (`FeedbackViewController.swift:156`, read at :161), is never assigned. The one-time
  loader's only assignment (:69) is commented out, and it targets
  `FeedbackUseState.storyboard`, which does not exist (`FeedbackUseState` at :89-91
  holds only `using`). So `Popup.PresentAlwaysRefused` shows that present always takes
  the early return.
- `canSendMail()` is a boolean.
- The PNG encoder is a function `Image -> Option<ImageData>`.
- The whitespace-and-newline character class is a predicate `char -> bool`.
- The window's root controller and the app window's recognizers are `Option` values.
- A view controller is seen from two sides, each with only the links its walk
  follows. `ReportClass.Controller` looks downwards, through the navigation stack
  and the presented controller, to find the screen being reported.
  `ParentView.Ancestry` looks upwards, through `parent`, to find the view the popup
  attaches to. The model does not relate the two views of one controller, because
  no operation uses both.

Facts about the code that the model keeps:
- The category titles are the Japanese literals at `FeedbackViewController.swift:426-436`.
- `toList` may be empty; nothing enforces it.
- Registration removes every long-press recognizer on the window
  (`Feedback.swift:82-88`), including ones the app added itself.
- The storyboard cache is never filled, so no popup can ever open.
- The dismiss guard can pass twice for one popup; see "## Findings".

## Model

| member | source | states |
|---|---|---|
| OptionalOrder.Less | FeedbackKit/Classes/FeedbackViewController.swift:13-22 | absent < present is true; present < present is the wrapped `<`; nothing is below absent |
| OptionalOrder.LessIsStrictOrder | FeedbackKit/Classes/FeedbackViewController.swift:13-22 | lifting an irreflexive, transitive `<` gives an irreflexive, transitive `<` on optionals |
| OptionalOrder.LessIsTotal | FeedbackKit/Classes/FeedbackViewController.swift:13-22 | lifting a total `<` keeps it total on optionals |
| Report.FeedbackBodyMessage | FeedbackKit/Classes/FeedbackViewController.swift:32-49 | the body is empty exactly when title, comment, reporter and class name are all absent; it ends with `]` when a class name is present, else with a line break |
| Report.BodyRoundTrip | FeedbackKit/Classes/FeedbackViewController.swift:32-49 | reading the body back gives exactly the present fields, each in its own `Label: [value]` slot, in the order Title, Comment, Reporter, ClassName, as long as no value holds a line break |
| Report.BodyDeterminesFields | FeedbackKit/Classes/FeedbackViewController.swift:32-49 | reports with different text fields and no line breaks render to different bodies |
| Report.BodyAmbiguousWithBreaks | FeedbackKit/Classes/FeedbackViewController.swift:35-40 | a title that contains `]`, a line break and `Comment: [` renders like a title plus a comment |
| Report.CaptureImageData | FeedbackKit/Classes/FeedbackViewController.swift:51-58 | there is no data without a screenshot; otherwise the data is the encoder's result |
| Picker.NumberOfComponents | FeedbackKit/Classes/FeedbackViewController.swift:408-410 | the picker has one component |
| Picker.EveryComponentListsAllTitles | FeedbackKit/Classes/FeedbackViewController.swift:408-438 | the one component has a row for each category, and row k shows the k-th title |
| Picker.NumberOfRows | FeedbackKit/Classes/FeedbackViewController.swift:412-414 | the row count equals the number of category titles (six) |
| Picker.TitleForRow | FeedbackKit/Classes/FeedbackViewController.swift:423-438 | every row has a title; rows 0-4 have their own title, and any other row (5, negative, too large) gets "その他" |
| Picker.TitlesDistinct | FeedbackKit/Classes/FeedbackViewController.swift:423-438 | the six titles are pairwise different |
| Picker.RowTitleRoundTrip | FeedbackKit/Classes/FeedbackViewController.swift:423-438 | looking up a row's title gives back that row, for rows 0-5 |
| Picker.TitleRowRoundTrip | FeedbackKit/Classes/FeedbackViewController.swift:423-438 | every category name is the title of the row where it is found |
| Picker.EveryTitleIsACategory | FeedbackKit/Classes/FeedbackViewController.swift:423-438 | any row's title is one of the six, found at the row it resolves to |
| Trimming.Trim | FeedbackKit/Classes/FeedbackViewController.swift:333 | the result is a slice of the input with only white space before and after it, and no white space at either end of the slice |
| Trimming.TrimUnique | FeedbackKit/Classes/FeedbackViewController.swift:333 | a string has exactly one trimming |
| Trimming.TrimIdempotent | FeedbackKit/Classes/FeedbackViewController.swift:333 | trimming twice is trimming once |
| Form.TrimmedText | FeedbackKit/Classes/FeedbackViewController.swift:333-339 | a field is present exactly when its text is, and then it is the trimmed text |
| Form.TapSendButton | FeedbackKit/Classes/FeedbackViewController.swift:324-356 | no send action means no call; otherwise exactly one call of that action. Its report has the selected row's category title and the trimmed texts, and copies the screenshot and class name as they are. The report's body is therefore never empty |
| ReportClass.SearchReportClass | FeedbackKit/Classes/FeedbackViewController.swift:180-192 | always returns a controller on the walk from the start that is a leaf: a navigation controller with an empty stack, or another controller presenting nothing |
| ReportClass.SearchFindsTheLeaf | FeedbackKit/Classes/FeedbackViewController.swift:180-192 | any leaf the walk reaches is the one the search returns |
| ReportClass.NavigationPresentedIgnored | FeedbackKit/Classes/FeedbackViewController.swift:184-188 | a navigation controller's presented controller never changes the result; with an empty stack the navigation controller itself is returned |
| ReportClass.GetReportClassName | FeedbackKit/Classes/FeedbackViewController.swift:194-200 | a name exists exactly when there is a root controller, and it is the class name of a leaf reached from the root |
| ParentView.Outermost | FeedbackKit/Classes/FeedbackViewController.swift:209-212 | the walk up the parent links ends at an ancestor that has no parent |
| ParentView.OutermostUnique | FeedbackKit/Classes/FeedbackViewController.swift:209-212 | a controller has only one parentless ancestor |
| ParentView.GetParentView | FeedbackKit/Classes/FeedbackViewController.swift:202-215 | a cached view is returned as it is; otherwise the outermost ancestor's view is returned and cached |
| ParentView.CacheIsSticky | FeedbackKit/Classes/FeedbackViewController.swift:204-207 | once the cache is filled, later calls return the same view whatever controller they are given |
| Popup.Instantiate | FeedbackKit/Classes/FeedbackViewController.swift:152-162 | a fresh popup exists exactly when a storyboard is available |
| Popup.PresentAlwaysRefused | FeedbackKit/Classes/FeedbackViewController.swift:63-71 | with the storyboard cache left empty, present never opens a popup and never changes the flag |
| Popup.PopupViewController | FeedbackKit/Classes/FeedbackViewController.swift:217-264 | the caller is always recorded and the parent view cached. The cached view is the one already cached, or else the caller's outermost ancestor's view. The overlay is installed on that view, and the slide-in started, only when the popup view is not already in the parent |
| Popup.PresentFeedbackViewController | FeedbackKit/Classes/FeedbackViewController.swift:138-150 | present does nothing while the flag is set, and nothing when instantiation fails. The flag becomes set only when an instance exists, and that instance gets the send action and is attached to the caller |
| Popup.DismissFeedbackViewController | FeedbackKit/Classes/FeedbackViewController.swift:287-309 | the slide-out starts exactly when the popup has a caller and an overlay; otherwise nothing happens |
| Popup.AlreadyAddedNeverDismisses | FeedbackKit/Classes/FeedbackViewController.swift:227-230 | a popup attached through the early return sets the flag but can never be dismissed |
| Popup.DismissCompleted | FeedbackKit/Classes/FeedbackViewController.swift:309-313 | the dismissal animation's completion removes the overlay and leaves the flag clear |
| Popup.Step | FeedbackKit/Classes/FeedbackViewController.swift:138-313 | one present, dismiss or animation-completion event opens at most one popup, and never leaves the flag set with nothing on screen. Except for a second dismiss during a running slide-out, it keeps "flag set exactly while a popup is on screen", and it opens a popup only when none is on screen |
| Popup.RunKeepsFlagImpliesPopup | FeedbackKit/Classes/FeedbackViewController.swift:287-313 | over any run of events, the flag is never set while no popup is on screen |
| Popup.RunKeepsInv | FeedbackKit/Classes/FeedbackViewController.swift:287-313 | a run that never dismisses a popup whose slide-out is running keeps the flag set exactly while a popup is on screen |
| Popup.Idle | FeedbackKit/Classes/FeedbackViewController.swift:89-91 | before any popup, the flag is clear, nothing is on screen, and the invariant holds |
| Popup.DoubleDismissOpensTwo | FeedbackKit/Classes/FeedbackViewController.swift:287-313 | dismissing a popup twice during its slide-out leaves a second completion pending. That completion clears the flag while a later popup is on screen, so one more present opens a popup on top of it |
| Popup.CoveredCompletionStillClears | FeedbackKit/Classes/FeedbackViewController.swift:287-313 | a popup covered by a newer one keeps its pending completion, which clears the flag while the newer popup is on screen |
| Popup.DismissIntended | FeedbackKit/Classes/FeedbackViewController.swift:287-293 | the corrected dismissal has the same effects as the original, and a second call on the same popup does nothing |
| Popup.StepIntended | FeedbackKit/Classes/FeedbackViewController.swift:138-313 | with the corrected dismissal, every event keeps the flag set exactly while a popup is on screen, and opens a popup only when none is showing |
| Popup.RunIntendedKeepsInv | FeedbackKit/Classes/FeedbackViewController.swift:287-313 | with the corrected dismissal, every run keeps the flag in step with the screen, with no condition on the events |
| Popup.IntendedFromIdle | FeedbackKit/Classes/FeedbackViewController.swift:89-91 | with the corrected dismissal, every run from the idle state ends with the flag set exactly while a popup is on screen |
| Popup.PresentsOpenAtMostOne | FeedbackKit/Classes/FeedbackViewController.swift:140-147 | presents with no dismissal in between open at most one popup, and none when one is already showing |
| Popup.DismissReopens | FeedbackKit/Classes/FeedbackViewController.swift:309-313 | when the dismiss animation completes the flag is cleared, and the next present can open a popup |
| Keyboard.ViewWillAppear | FeedbackKit/Classes/FeedbackViewController.swift:99-108 | appearing subscribes to both notifications only when not yet observing, and leaves the flag set |
| Keyboard.ViewWillDisappear | FeedbackKit/Classes/FeedbackViewController.swift:110-120 | disappearing unsubscribes from both only when observing, and leaves the flag clear |
| Keyboard.RegistrationsFollowFlag | FeedbackKit/Classes/FeedbackViewController.swift:99-120 | over any run of appear and disappear events, each notification's registration count changes exactly as the flag does, so it is never registered twice |
| Keyboard.RepeatedAppearsSubscribeOnce | FeedbackKit/Classes/FeedbackViewController.swift:102-107 | any number of appears in a row subscribes once, or not at all if already observing |
| EmailConfigs.InitTo | FeedbackKit/Classes/Feedback.swift:20-22 | the recipient list is the one address; subject, cc and bcc are absent |
| EmailConfigs.InitLists | FeedbackKit/Classes/Feedback.swift:24-29 | recipients, subject and cc are copied, and bcc is set to the cc list |
| EmailConfigs.BccArgumentIgnored | FeedbackKit/Classes/Feedback.swift:24-29 | as written, the bcc argument has no effect |
| EmailConfigs.BccAliasCounterexample | FeedbackKit/Classes/Feedback.swift:28 | a bcc-only configuration ends up with no bcc as written, and keeps it with the correction |
| EmailConfigs.InitListsIntended | FeedbackKit/Classes/Feedback.swift:24-29 | the corrected initialiser stores every argument in its own field |
| EmailConfigs.AsWrittenAgreesWhenBccIsCc | FeedbackKit/Classes/Feedback.swift:24-29 | the as-written and corrected initialisers agree exactly when the bcc argument equals the cc argument |
| Mail.ComposerOf | FeedbackKit/Classes/FeedbackMail.swift:26-44 | to is toList; cc and bcc are set only when present; the subject defaults to "Feedbackmail"; the body is the report body as plain text; a PNG attachment named feedback.png is added exactly when there is image data |
| Mail.Send | FeedbackKit/Classes/FeedbackMail.swift:16-48 | without mail support there is one alert, no composer, and the stored completion is unchanged. Otherwise the completion is stored and one composer with those fields is presented |
| Mail.ErrorMessage | FeedbackKit/Classes/FeedbackMail.swift:64 | the alert message starts with `error:`, followed by `nil` when there is no error and by `Optional(...)` around the error's description otherwise |
| Mail.ErrorMessageInjective | FeedbackKit/Classes/FeedbackMail.swift:64 | two errors give the same alert message exactly when they are the same |
| Mail.DidFinish | FeedbackKit/Classes/FeedbackMail.swift:50-69 | the completion is called at most once: only for sent with a stored completion, and right after the composer is dismissed. Saved, cancelled, and sent with no stored completion only dismiss the composer; sent with one dismisses and then calls it; failed only shows the error alert; any other result does nothing |
| Mail.ComposedBodyReadsBack | FeedbackKit/Classes/FeedbackMail.swift:40 | when no text field of the report contains a line break, the composed body reads back into exactly the report's text fields |
| Mail.BccMirrorsCc | FeedbackKit/Classes/FeedbackMail.swift:28-34 | with the as-written multi-list initialiser, the composer's bcc recipients are its cc recipients |
| Mail.BccDelivered | FeedbackKit/Classes/FeedbackMail.swift:28-34 | with the corrected initialiser, the bcc argument reaches the composer |
| Facade.RouteOf | FeedbackKit/Classes/Feedback.swift:44-70 | the email variant routes to mail with its configuration; the custom variant routes to its action. Both finish with this call's `dismissed` |
| Facade.Show | FeedbackKit/Classes/Feedback.swift:38-57 | without a root controller nothing happens; otherwise the popup is presented on the root with this feedback's route as its send action |
| Facade.Submit | FeedbackKit/Classes/Feedback.swift:45-70 | the mail route sends with the flow's completion; the custom route calls the custom action exactly once, with that completion as `success` |
| Facade.Finish | FeedbackKit/Classes/Feedback.swift:49-66 | running a flow's completion dismisses the popup first, then calls this flow's `dismissed` callback |
| Facade.EmailFlowOrder | FeedbackKit/Classes/Feedback.swift:45-55 | email route: the send stores the flow's completion, and a sent mail dismisses the composer and runs it once. Running it dismisses the popup, then calls `dismissed` |
| Facade.CustomFlowOrder | FeedbackKit/Classes/Feedback.swift:56-70 | custom route: one call of the action, whose `success` dismisses the popup and then calls `dismissed` |
| Facade.ExampleBody | FeedbackKit/Classes/FeedbackViewController.swift:35-40 | a title and a comment render as two lines |
| Facade.WorkedExample | FeedbackKit/Classes/FeedbackMail.swift:28-58 | one recipient, the default subject, a two-line body, no attachment, and one completion on sent |
| Gesture.WithoutLongPress | FeedbackKit/Classes/Feedback.swift:82-88 | after the removal loop no long-press recognizer is left, and only long-press ones are gone |
| Gesture.WithoutLongPressKeepsOthers | FeedbackKit/Classes/Feedback.swift:82-88 | every other recognizer stays, as many times as it occurred |
| Gesture.WithoutLongPressAppend | FeedbackKit/Classes/Feedback.swift:82-88 | removal keeps the order of the remaining recognizers |
| Gesture.RemovalStep | FeedbackKit/Classes/Feedback.swift:83-87 | one turn of the loop removes the current recognizer exactly when it is a long press |
| Gesture.RemoveRecognizer | FeedbackKit/Classes/Feedback.swift:85 | removing a recognizer takes one occurrence of it out of the window and nothing else; an unattached one changes nothing |
| Gesture.RemoveAfterPrefix | FeedbackKit/Classes/Feedback.swift:85 | removing a recognizer that does not occur before a given point removes exactly the occurrence at that point |
| Gesture.RemovalTurn | FeedbackKit/Classes/Feedback.swift:83-87 | one turn of the loop, removing from the window itself, takes the window one recognizer further along the removal |
| Gesture.AddDoubleLongPressGestureRecognizer | FeedbackKit/Classes/Feedback.swift:74-91 | the singleton stores this feedback and callback even without a window. With a window, it keeps its other recognizers and gains exactly one long press, which needs 2 touches |
| Gesture.WithoutLongPressIdempotent | FeedbackKit/Classes/Feedback.swift:82-88 | removing long presses twice is removing them once |
| Gesture.RegisterTwiceSameWindow | FeedbackKit/Classes/Feedback.swift:74-91 | registering again leaves the window the same as one registration did |
| Gesture.PressGesture | FeedbackKit/Classes/Feedback.swift:105-118 | no stored feedback: no show; otherwise show the stored feedback with the stored callback, or the empty callback if none is stored |
| Gesture.PressAfterRegistration | FeedbackKit/Classes/Feedback.swift:76-77 | after a registration a press shows the registered feedback with the registered callback; the fresh singleton shows nothing |

## Left out

- Screenshot capture (`screenshotImage`) and PNG encoding are platform rendering calls. The image is opaque and the encoder is a parameter.
- Frame geometry and animation are left out: the 300×300 frame, start and end rects, the 0.35 s curves, `EffectView.draw`, and the keyboard shift arithmetic in `keyboardWillShow`/`keyboardWillHide`. They are CGFloat geometry, not discrete behaviour. An animation is modelled as a start effect plus a completion step.
- Storyboard and bundle loading (`__once`, `instantiateInitialViewController`) are an `Option<Storyboard>` input.
- The hop to the main queue in the custom `success` closure is a thread hop. Only the effect order it produces is modelled.
- NotificationCenter, the mail composer, alert controllers, gesture recognizer objects and `NSStringFromClass` are platform APIs. They appear as effects, recognizer kinds and opaque class-name strings.
- Recognizers are values, not objects: `Gesture.RemoveRecognizer` removes the first equal recognizer where UIKit removes the identical object. The loop only removes recognizers it reads from the window in order, so the two agree on the resulting window.
- `textFieldShouldReturn`, `touchesBegan` and `didSelectRow` only end editing or do nothing, so they are not modelled.
- `viewDidLoad`/`initialize` are not modelled as steps. Their results, the screenshot and `reportClassName`, are inputs of `Form.FormState`.
- The controller's `mailSendCompletion` property is never read, so it is not modelled.
- Trimming.Trim: the character class of `whitespacesAndNewlines` is an abstract predicate, not Unicode's.
- Popup.RunKeepsInv: covers only runs with no second dismiss during a running slide-out. A second dismiss schedules a second completion, which clears the flag whatever is then on screen (`Popup.DoubleDismissOpensTwo`). For every run, `Popup.RunKeepsFlagImpliesPopup` keeps the direction "flag set implies a popup on screen".
- Popup.Step: dismiss acts only on the popup on screen. A dismiss call on a controller that is no longer tracked is not an event, though its guard would still pass: one already gone, or one a present has covered with a newer popup while it stays on screen. The pending completions of such controllers are still counted (`stray`), and they still clear the flag.
- Popup.PresentsOpenAtMostOne: covers runs made only of presents. Runs with dismissals are covered by the contract of `Popup.Step`.
- Report.BodyRoundTrip: holds only when no field value contains a line break. `Report.BodyAmbiguousWithBreaks` shows the body is ambiguous otherwise.
- Mail.ComposedBodyReadsBack: holds only when no text field contains a line break, the same condition as Report.BodyRoundTrip.
- Mail.ErrorMessage: the error text is the optional error's description, given as a string. Swift's exact rendering of an `Error` is opaque.

## Findings

| source | as written | input that shows it | evidently intended | confidence | as-written member | corrected member |
|---|---|---|---|---|---|---|
| FeedbackKit/Classes/Feedback.swift:28 | `bccList` is assigned the `ccList` argument, so the `bccList` argument is never read | `InitLists(["a@x.com"], None, None, Some(["b@x.com"]))` has no bcc, so b@x.com never receives the mail | store the `bccList` argument as the bcc list | medium, not executed | EmailConfigs.InitLists (exhibited by EmailConfigs.BccAliasCounterexample, Mail.BccMirrorsCc) | EmailConfigs.InitListsIntended (proved by Mail.BccDelivered) |
| FeedbackKit/Classes/FeedbackViewController.swift:289-293 | the dismiss guard reads only `callerViewController`, `overlayView` and `effectView`, which nothing clears. A second call of `dismissFeedbackViewController()` on the same popup, for example a second call of the custom route's `success` (Feedback.swift:59-66), starts a second slide-out, and each completion (:309-313) sets `using = false` | from the idle state, run [Present A, Dismiss, Dismiss, AnimationDone, Present B, AnimationDone]: the flag is clear while B is on screen, and one more present opens a second popup over B | one dismissal per popup, so that `using` is set exactly while a popup is shown | low, not executed; the code does not settle whether UIKit delivers a second tap on the dismiss button during the animation, and the path needs a popup to open, which this revision never does | Popup.Step (exhibited by Popup.DoubleDismissOpensTwo) | Popup.StepIntended with Popup.DismissIntended (proved by Popup.RunIntendedKeepsInv, Popup.IntendedFromIdle) |

=== FILE: email_config.dfy ===
/**
 * `Feedback.EmailConfig`: recipients and subject for the email route, with
 * its two initialisers.
 */
module EmailConfigs {
  import opened Optionals

  datatype EmailConfig = EmailConfig(
    toList: seq<string>,
    mailSubject: Option<string>,
    ccList: Option<seq<string>>,
    bccList: Option<seq<string>>)

  /** `init(to:)`: one recipient, nothing else. */
  function InitTo(to: string): (c: EmailConfig)
    ensures c.toList == [to]
    ensures c.mailSubject.None? && c.ccList.None? && c.bccList.None?
  {
    EmailConfig([to], None, None, None)
  }

  /**
   * `init(toList:mailSubject:ccList:bccList:)` as written: the `bccList`
   * argument is never read and the cc list is stored as the bcc list too.
   */
  function InitLists(toList: seq<string>, mailSubject: Option<string>, ccList: Option<seq<string>>, bccList: Option<seq<string>>): (c: EmailConfig)
    ensures c.toList == toList && c.mailSubject == mailSubject && c.ccList == ccList
    ensures c.bccList == c.ccList
  {
    EmailConfig(toList, mailSubject, ccList, ccList)
  }

  /** The initialiser with every argument stored in its own field. */
  function InitListsIntended(toList: seq<string>, mailSubject: Option<string>, ccList: Option<seq<string>>, bccList: Option<seq<string>>): (c: EmailConfig)
    ensures c.toList == toList && c.mailSubject == mailSubject && c.ccList == ccList
    ensures c.bccList == bccList
  {
    EmailConfig(toList, mailSubject, ccList, bccList)
  }

  /** As written, the bcc argument has no influence on the configuration. */
  lemma BccArgumentIgnored(toList: seq<string>, mailSubject: Option<string>, ccList: Option<seq<string>>, b1: Option<seq<string>>, b2: Option<seq<string>>)
    ensures InitLists(toList, mailSubject, ccList, b1) == InitLists(toList, mailSubject, ccList, b2)
  {
  }

  /** A bcc-only configuration loses its bcc recipient as written. */
  lemma BccAliasCounterexample()
    ensures InitLists(["a@x.com"], None, None, Some(["b@x.com"])).bccList == None
    ensures InitListsIntended(["a@x.com"], None, None, Some(["b@x.com"])).bccList == Some(["b@x.com"])
  {
  }

  /** The two initialisers agree exactly when the bcc argument equals the cc argument. */
  lemma AsWrittenAgreesWhenBccIsCc(toList: seq<string>, mailSubject: Option<string>, ccList: Option<seq<string>>, bccList: Option<seq<string>>)
    ensures InitLists(toList, mailSubject, ccList, bccList) == InitListsIntended(toList, mailSubject, ccList, bccList)
            <==> bccList == ccList
  {
  }
}

=== FILE: facade.dfy ===
/**
 * `Feedback`, the public facade: `show` presents the popup with a send
 * action that routes the report either to the mail composer or to the
 * caller's custom action. Either way, finishing the flow dismisses the popup
 * first and then calls the caller's `dismissed` callback.
 */
module Facade {
  import opened Optionals
  import opened Report
  import opened EmailConfigs
  import opened Mail
  import opened ParentView
  import Popup

  /** A caller-supplied closure, opaque; `NoOp` is the empty closure `{ }`. */
  datatype Callback = NoOp | Closure(id: nat)

  datatype Feedback = Email(emailConfig: EmailConfig) | Custom(action: nat)

  /** The closure that ends a flow: mailSendCompletion on the mail route, `success` on the custom one. */
  datatype Completion = Completion(dismissed: Callback)

  /** The send action `show` hands to the popup. */
  datatype Route =
    | MailRoute(emailConfig: EmailConfig, finish: Completion)
    | CustomRoute(action: nat, finish: Completion)

  function RouteOf(feedback: Feedback, dismissed: Callback): (route: Route)
    ensures route.finish == Completion(dismissed)
    ensures route.MailRoute? <==> feedback.Email?
    ensures route.MailRoute? ==> route.emailConfig == feedback.emailConfig
    ensures route.CustomRoute? ==> route.action == feedback.action
  {
    match feedback
    case Email(config) => MailRoute(config, Completion(dismissed))
    case Custom(action) => CustomRoute(action, Completion(dismissed))
  }

  /**
   * `show(_:)`: nothing without a root view controller; otherwise the popup
   * is presented on the root with the route for this feedback as its action.
   */
  function Show(feedback: Feedback, root: Option<Ancestry>, dismissed: Callback,
                using: bool, instance: Option<Popup.PopupController<Route>>, alreadyAdded: bool): (r: Popup.Presented<Route>)
    ensures root.None? ==> r == Popup.Presented(using, None, [])
    ensures r.popup.Some? <==> root.Some? && !using && instance.Some?
    ensures r.popup.Some? ==> r.popup.value.sendAction == Some(RouteOf(feedback, dismissed))
    ensures r.popup.Some? ==> r.popup.value.caller == root
  {
    match root
    case None => Popup.Presented(using, None, [])
    case Some(caller) => Popup.PresentFeedbackViewController(using, instance, caller, RouteOf(feedback, dismissed), alreadyAdded)
  }

  datatype SubmitEffect =
    | MailStep(effect: MailEffect<Completion>)
    | InvokeCustom(action: nat, info: SendInformation, success: Completion)

  function MailSteps(effects: seq<MailEffect<Completion>>): (r: seq<SubmitEffect>)
    ensures |r| == |effects|
    ensures forall i :: 0 <= i < |r| ==> r[i] == MailStep(effects[i])
  {
    seq(|effects|, i requires 0 <= i < |effects| => MailStep(effects[i]))
  }

  /**
   * The popup's send action for a route: the mail route sends with the
   * flow's completion, the custom route calls the custom action once with it
   * as `success`. Returns the mail sender's stored completion too.
   */
  function Submit(route: Route, info: SendInformation, stored: Option<Completion>,
                  canSendMail: bool, png: Image -> Option<ImageData>): (r: (Option<Completion>, seq<SubmitEffect>))
    ensures route.CustomRoute? ==> r == (stored, [InvokeCustom(route.action, info, route.finish)])
    ensures route.MailRoute? ==> var s := Send(stored, route.emailConfig, info, canSendMail, png, route.finish);
                                 r == (s.stored, MailSteps(s.effects))
  {
    match route
    case MailRoute(config, finish) =>
      var s := Send(stored, config, info, canSendMail, png, finish);
      (s.stored, MailSteps(s.effects))
    case CustomRoute(action, finish) => (stored, [InvokeCustom(action, info, finish)])
  }

  datatype FinishEffect = DismissPopup | Notify(callback: Callback)

  /**
   * Running a completion: `dismissFeedbackViewController()`, then the
   * caller's callback. On the custom route this runs after a hop to the main
   * queue, which changes when it runs but not the order.
   */
  function Finish(c: Completion): (r: seq<FinishEffect>)
    ensures |r| == 2 && r[0] == DismissPopup && r[1] == Notify(c.dismissed)
  {
    [DismissPopup, Notify(c.dismissed)]
  }

  /**
   * Email route, end to end: the send stores this flow's completion; a sent
   * mail dismisses the composer and runs it once; running it dismisses the
   * popup and then calls `dismissed`.
   */
  lemma EmailFlowOrder(config: EmailConfig, root: Ancestry, dismissed: Callback,
                       instance: Popup.PopupController<Route>, info: SendInformation,
                       png: Image -> Option<ImageData>, error: Option<string>)
    ensures var shown := Show(Email(config), Some(root), dismissed, false, Some(instance), false);
            var route := shown.popup.value.sendAction.value;
            var (stored, effects) := Submit(route, info, None, true, png);
            var finished := DidFinish(Sent, stored, error);
            && shown.using
            && |effects| == 1 && effects[0].MailStep? && effects[0].effect.PresentComposer?
            && finished == [DismissComposer, CallCompletion(Completion(dismissed))]
            && Finish(finished[1].completion) == [DismissPopup, Notify(dismissed)]
  {
  }

  /**
   * Custom route, end to end: submitting calls the custom action exactly once,
   * and its `success` dismisses the popup and then calls `dismissed`.
   */
  lemma CustomFlowOrder(action: nat, root: Ancestry, dismissed: Callback,
                        instance: Popup.PopupController<Route>, info: SendInformation,
                        stored: Option<Completion>, canSendMail: bool, png: Image -> Option<ImageData>)
    ensures var shown := Show(Custom(action), Some(root), dismissed, false, Some(instance), false);
            var route := shown.popup.value.sendAction.value;
            var (stored', effects) := Submit(route, info, stored, canSendMail, png);
            && stored' == stored
            && effects == [InvokeCustom(action, info, Completion(dismissed))]
            && Finish(effects[0].success) == [DismissPopup, Notify(dismissed)]
  {
  }

  /** An end-to-end example's report: a "possible bug" title and a comment. */
  const ExampleInfo := EmptyInformation.(selectedTitle := Some("バグかも"), comment := Some("broken"))

  lemma ExampleBody()
    ensures FeedbackBodyMessage(ExampleInfo) == "Title: [バグかも]\nComment: [broken]\n"
  {
  }

  /**
   * An end-to-end example: one recipient, no screenshot. The composer goes to
   * that recipient with the default subject, a two-line body and no
   * attachment, and a sent result completes once.
   */
  lemma WorkedExample(png: Image -> Option<ImageData>, dismissed: Callback)
    ensures var s := Send(None, InitTo("a@x.com"), ExampleInfo, true, png, Completion(dismissed));
            var m := s.effects[0].composer;
            && m.to == ["a@x.com"] && m.subject == "Feedbackmail"
            && m.body == "Title: [バグかも]\nComment: [broken]\n"
            && m.attachment.None?
            && CompletionCalls(DidFinish(Sent, s.stored, None)) == 1
  {
  }
}

=== FILE: form.dfy ===
/**
 * `tapSendButton(_:)`: reading the feedback form into a `SendInformation` and
 * handing it to the popup's send action.
 */
module Form {
  import opened Optionals
  import opened Report
  import Picker
  import Trimming

  /** What the popup's outlets and stored properties hold at the moment of the tap. */
  datatype FormState = FormState(
    commentText: Option<string>,      // freeCommentTextField.text
    reporterText: Option<string>,     // reporterField.text
    selectedRow: int,                 // picker.selectedRow(inComponent: 0)
    screenImage: Option<Image>,       // screenImageView.image
    reportClassName: Option<string>)  // computed when the popup loaded

  /** One call of the send action `A` with the report it receives. */
  datatype SendCall<A> = SendCall(action: A, info: SendInformation)

  /** A form text, trimmed when the field has text, absent otherwise. */
  ghost predicate TrimmedField(field: Option<string>, text: Option<string>, ws: char -> bool) {
    && (field.Some? <==> text.Some?)
    && (text.Some? ==> Trimming.IsTrimOf(field.value, text.value, ws))
  }

  /** The report describes the form it was read from. */
  ghost predicate DescribesForm(info: SendInformation, form: FormState, ws: char -> bool) {
    && info.selectedTitle.Some?
    && Picker.RowOfTitle(info.selectedTitle.value) == Some(Picker.EffectiveRow(form.selectedRow))
    && TrimmedField(info.comment, form.commentText, ws)
    && TrimmedField(info.reporterName, form.reporterText, ws)
    && info.captureImage == form.screenImage
    && info.className == form.reportClassName
  }

  function TrimmedText(text: Option<string>, ws: char -> bool): (field: Option<string>)
    ensures TrimmedField(field, text, ws)
  {
    match text
    case None => None
    case Some(t) => Some(Trimming.Trim(t, ws))
  }

  /**
   * The send button: nothing without a send action, otherwise exactly one call
   * of it with the report read from the form. Every such report carries a
   * category title, so its mail body is never empty.
   */
  function TapSendButton<A>(sendAction: Option<A>, form: FormState, ws: char -> bool): (calls: seq<SendCall<A>>)
    ensures sendAction.None? ==> calls == []
    ensures sendAction.Some? ==> |calls| == 1 && calls[0].action == sendAction.value
    ensures forall c | c in calls :: DescribesForm(c.info, form, ws)
    ensures forall c | c in calls :: FeedbackBodyMessage(c.info) != ""
  {
    match sendAction
    case None => []
    case Some(action) =>
      var info := EmptyInformation
        .(comment := TrimmedText(form.commentText, ws))
        .(reporterName := TrimmedText(form.reporterText, ws))
        .(selectedTitle := Picker.TitleForRow(form.selectedRow))
        .(captureImage := form.screenImage)
        .(className := form.reportClassName);
      Picker.EveryTitleIsACategory(form.selectedRow);
      [SendCall(action, info)]
  }
}

=== FILE: gesture.dfy ===
/**
 * `addDoubleLongPressGestureRecognizer(_:)` and `GestureFeedback`: a
 * two-finger long press on the app window re-opens the feedback popup. The
 * singleton remembers the feedback and the callback of the last registration.
 */
module Gesture {
  import opened Optionals
  import opened Facade

  /** A recognizer attached to the window; every long-press kind is one `LongPress`. */
  datatype Recognizer = LongPress(touchesRequired: nat) | OtherRecognizer(id: nat)

  /** The stored properties of the `GestureFeedback.gestureFeedback` singleton. */
  datatype GestureFeedback = GestureFeedback(feedback: Option<Feedback>, dismissed: Option<Callback>)

  /** The singleton as first created. */
  const InitialGestureFeedback := GestureFeedback(None, None)

  /** The recognizer registration creates. */
  const DoubleLongPress := LongPress(2)

  function LongPressCount(rs: seq<Recognizer>): nat
    decreases |rs|
  {
    if rs == [] then 0 else (if rs[0].LongPress? then 1 else 0) + LongPressCount(rs[1..])
  }

  /** `rs` with every long-press recognizer removed, the rest in order. */
  function WithoutLongPress(rs: seq<Recognizer>): (r: seq<Recognizer>)
    ensures LongPressCount(r) == 0
    ensures forall k :: 0 <= k < |r| ==> !r[k].LongPress?
    ensures |r| == |rs| - LongPressCount(rs)
    decreases |rs|
  {
    if rs == [] then []
    else if rs[0].LongPress? then WithoutLongPress(rs[1..]) else [rs[0]] + WithoutLongPress(rs[1..])
  }

  /** Removal takes out every long press and keeps every other recognizer, as often as it occurs. */
  lemma {:induction false} WithoutLongPressKeepsOthers(rs: seq<Recognizer>, x: Recognizer)
    ensures multiset(WithoutLongPress(rs))[x] == if x.LongPress? then 0 else multiset(rs)[x]
    decreases |rs|
  {
    if rs != [] {
      WithoutLongPressKeepsOthers(rs[1..], x);
      assert rs == [rs[0]] + rs[1..];
    }
  }

  lemma {:induction false} LongPressCountAppend(a: seq<Recognizer>, b: seq<Recognizer>)
    ensures LongPressCount(a + b) == LongPressCount(a) + LongPressCount(b)
    decreases |a|
  {
    if a == [] {
      assert a + b == b;
    } else {
      assert (a + b)[0] == a[0];
      assert (a + b)[1..] == a[1..] + b;
      LongPressCountAppend(a[1..], b);
    }
  }

  /** Removal keeps the other recognizers in their order: it distributes over concatenation. */
  lemma {:induction false} WithoutLongPressAppend(a: seq<Recognizer>, b: seq<Recognizer>)
    ensures WithoutLongPress(a + b) == WithoutLongPress(a) + WithoutLongPress(b)
    decreases |a|
  {
    if a == [] {
      assert a + b == b;
    } else {
      assert (a + b)[0] == a[0];
      assert (a + b)[1..] == a[1..] + b;
      WithoutLongPressAppend(a[1..], b);
    }
  }

  /** One turn of the removal loop: the recognizer at `i` goes exactly when it is a long press. */
  lemma RemovalStep(rs: seq<Recognizer>, i: nat)
    requires i < |rs|
    ensures WithoutLongPress(rs[..i + 1]) + rs[i + 1..] ==
            if rs[i].LongPress? then WithoutLongPress(rs[..i]) + rs[i + 1..]
            else WithoutLongPress(rs[..i]) + rs[i..]
  {
    assert rs[i..] == [rs[i]] + rs[i + 1..];
    assert rs[..i + 1] == rs[..i] + [rs[i]];
    WithoutLongPressAppend(rs[..i], [rs[i]]);
    assert WithoutLongPress([rs[i]]) == if rs[i].LongPress? then [] else [rs[i]] by {
      assert [rs[i]][1..] == [];
    }
  }

  /**
   * `removeGestureRecognizer(_:)`: the window drops the first occurrence of
   * the recognizer and keeps the rest in order; an unattached one changes nothing.
   */
  function RemoveRecognizer(rs: seq<Recognizer>, x: Recognizer): (r: seq<Recognizer>)
    ensures x !in rs ==> r == rs
    ensures x in rs ==> |r| == |rs| - 1
    ensures multiset(r) == multiset(rs) - multiset{x}
    decreases |rs|
  {
    if rs == [] then []
    else
      assert rs == [rs[0]] + rs[1..];
      if rs[0] == x then rs[1..] else [rs[0]] + RemoveRecognizer(rs[1..], x)
  }

  /** Removing a recognizer that follows a prefix without it leaves prefix and suffix joined. */
  lemma {:induction false} RemoveAfterPrefix(a: seq<Recognizer>, x: Recognizer, b: seq<Recognizer>)
    requires x !in a
    ensures RemoveRecognizer(a + [x] + b, x) == a + b
    decreases |a|
  {
    var s := a + [x] + b;
    if a == [] {
      assert s[0] == x && s[1..] == b;
    } else {
      var t := a[1..] + [x] + b;
      assert s[0] == a[0] && s[0] != x && s[1..] == t by {
        assert s == [a[0]] + t;
      }
      assert x !in a[1..] by {
        assert forall k :: 0 <= k < |a[1..]| ==> a[1..][k] == a[k + 1];
      }
      assert RemoveRecognizer(t, x) == a[1..] + b by {
        RemoveAfterPrefix(a[1..], x, b);
      }
      assert a + b == [a[0]] + (a[1..] + b);
    }
  }

  /**
   * One turn of the loop on the window itself: removing the current
   * recognizer when it is a long press moves the window one step further
   * along the removal.
   */
  lemma RemovalTurn(rs: seq<Recognizer>, i: nat)
    requires i < |rs|
    ensures var attached := WithoutLongPress(rs[..i]) + rs[i..];
            (if rs[i].LongPress? then RemoveRecognizer(attached, rs[i]) else attached)
            == WithoutLongPress(rs[..i + 1]) + rs[i + 1..]
  {
    RemovalStep(rs, i);
    if rs[i].LongPress? {
      var kept := WithoutLongPress(rs[..i]);
      assert rs[i] !in kept;
      assert kept + rs[i..] == kept + [rs[i]] + rs[i + 1..] by {
        assert rs[i..] == [rs[i]] + rs[i + 1..];
      }
      RemoveAfterPrefix(kept, rs[i], rs[i + 1..]);
    }
  }

  /**
   * `addDoubleLongPressGestureRecognizer(_:)`. The singleton is overwritten
   * whether or not there is a window; with a window, its long-press
   * recognizers are removed one by one and the new two-finger one is added.
   */
  method AddDoubleLongPressGestureRecognizer(g: GestureFeedback, feedback: Feedback, dismissed: Callback,
                                             window: Option<seq<Recognizer>>)
    returns (g': GestureFeedback, window': Option<seq<Recognizer>>)
    ensures g' == GestureFeedback(Some(feedback), Some(dismissed))
    ensures window'.Some? <==> window.Some?
    ensures window'.Some? ==> window'.value == WithoutLongPress(window.value) + [DoubleLongPress]
    ensures window'.Some? ==> LongPressCount(window'.value) == 1
    ensures window'.Some? ==> forall x: Recognizer :: !x.LongPress? ==> multiset(window'.value)[x] == multiset(window.value)[x]
  {
    g' := g.(dismissed := Some(dismissed));
    g' := g'.(feedback := Some(feedback));
    match window {
      case None =>
        window' := None;
      case Some(recognizers) =>
        var attached := recognizers;
        var i := 0;
        while i < |recognizers|
          invariant 0 <= i <= |recognizers|
          invariant attached == WithoutLongPress(recognizers[..i]) + recognizers[i..]
        {
          RemovalTurn(recognizers, i);
          if recognizers[i].LongPress? {
            attached := RemoveRecognizer(attached, recognizers[i]);
          }
          i := i + 1;
        }
        assert recognizers[..i] == recognizers;
        LongPressCountAppend(WithoutLongPress(recognizers), [DoubleLongPress]);
        window' := Some(attached + [DoubleLongPress]);
        forall x: Recognizer | !x.LongPress?
          ensures multiset(window'.value)[x] == multiset(recognizers)[x]
        {
          WithoutLongPressKeepsOthers(recognizers, x);
        }
    }
  }

  /** Registering again leaves the window as one registration left it. */
  lemma RegisterTwiceSameWindow(rs: seq<Recognizer>)
    ensures WithoutLongPress(WithoutLongPress(rs) + [DoubleLongPress]) + [DoubleLongPress]
            == WithoutLongPress(rs) + [DoubleLongPress]
  {
    WithoutLongPressAppend(WithoutLongPress(rs), [DoubleLongPress]);
    WithoutLongPressIdempotent(rs);
  }

  lemma {:induction false} WithoutLongPressIdempotent(rs: seq<Recognizer>)
    ensures WithoutLongPress(WithoutLongPress(rs)) == WithoutLongPress(rs)
    decreases |rs|
  {
    if rs != [] {
      WithoutLongPressIdempotent(rs[1..]);
      if !rs[0].LongPress? {
        var t := WithoutLongPress(rs[1..]);
        assert ([rs[0]] + t)[0] == rs[0];
        assert ([rs[0]] + t)[1..] == t;
      }
    }
  }

  /** `pressGesture(_:)`: the `show` call it makes, if any. */
  function PressGesture(g: GestureFeedback): (call: Option<(Feedback, Callback)>)
    ensures g.feedback.None? ==> call.None?
    ensures g.feedback.Some? ==> call.Some? && call.value.0 == g.feedback.value
    ensures g.feedback.Some? ==> call.value.1 == g.dismissed.GetOr(NoOp)
  {
    match g.feedback
    case None => None
    case Some(feedback) =>
      match g.dismissed
      case None => Some((feedback, NoOp))
      case Some(dismissed) => Some((feedback, dismissed))
  }

  /** After a registration, a press shows the registered feedback with the registered callback. */
  lemma PressAfterRegistration(feedback: Feedback, dismissed: Callback)
    ensures PressGesture(GestureFeedback(Some(feedback), Some(dismissed))) == Some((feedback, dismissed))
    ensures PressGesture(InitialGestureFeedback) == None
  {
  }
}

=== FILE: keyboard.dfy ===
/**
 * `viewWillAppear(_:)` / `viewWillDisappear(_:)`: subscribing the popup to
 * the keyboard show and hide notifications, guarded by `isKeyboardObserving`
 * so that neither subscribing nor unsubscribing ever happens twice.
 */
module Keyboard {

  datatype Notification = WillShow | WillHide

  datatype ObserverEffect = Subscribe(n: Notification) | Unsubscribe(n: Notification)

  /** The view events that reach the observer guard. */
  datatype ViewEvent = Appear | Disappear

  /** `viewWillAppear(_:)`: the new flag and the registrations made. */
  function ViewWillAppear(observing: bool): (r: (bool, seq<ObserverEffect>))
    ensures r.0
    ensures observing ==> r.1 == []
    ensures !observing ==> r.1 == [Subscribe(WillShow), Subscribe(WillHide)]
  {
    if !observing then (true, [Subscribe(WillShow), Subscribe(WillHide)]) else (observing, [])
  }

  /** `viewWillDisappear(_:)`: the new flag and the registrations removed. */
  function ViewWillDisappear(observing: bool): (r: (bool, seq<ObserverEffect>))
    ensures !r.0
    ensures !observing ==> r.1 == []
    ensures observing ==> r.1 == [Unsubscribe(WillShow), Unsubscribe(WillHide)]
  {
    if observing then (false, [Unsubscribe(WillShow), Unsubscribe(WillHide)]) else (observing, [])
  }

  /** One view event: the new flag and the registrations changed. */
  function Handle(observing: bool, event: ViewEvent): (bool, seq<ObserverEffect>) {
    match event
    case Appear => ViewWillAppear(observing)
    case Disappear => ViewWillDisappear(observing)
  }

  /** The flag after a run of view events, and every registration change made on the way. */
  function Run(observing: bool, events: seq<ViewEvent>): (bool, seq<ObserverEffect>)
    decreases |events|
  {
    if events == [] then (observing, [])
    else
      var (o, e) := Handle(observing, events[0]);
      var (o', e') := Run(o, events[1..]);
      (o', e + e')
  }

  /** Subscriptions minus unsubscriptions for one notification. */
  function Net(effects: seq<ObserverEffect>, n: Notification): int
    decreases |effects|
  {
    if effects == [] then 0
    else (match effects[0]
          case Subscribe(m) => if m == n then 1 else 0
          case Unsubscribe(m) => if m == n then -1 else 0)
         + Net(effects[1..], n)
  }

  lemma NetAppend(a: seq<ObserverEffect>, b: seq<ObserverEffect>, n: Notification)
    ensures Net(a + b, n) == Net(a, n) + Net(b, n)
    decreases |a|
  {
    if a != [] {
      assert (a + b)[0] == a[0];
      assert (a + b)[1..] == a[1..] + b;
      NetAppend(a[1..], b, n);
    } else {
      assert a + b == b;
    }
  }

  /**
   * Over any sequence of appear and disappear events, the registrations for
   * each notification change by exactly the change in the flag: the popup is
   * registered once while observing and not at all otherwise.
   */
  lemma {:induction false} RegistrationsFollowFlag(observing: bool, events: seq<ViewEvent>, n: Notification)
    ensures var (o, effects) := Run(observing, events);
            Net(effects, n) == (if o then 1 else 0) - (if observing then 1 else 0)
    decreases |events|
  {
    if events != [] {
      var (o, e) := Handle(observing, events[0]);
      RegistrationsFollowFlag(o, events[1..], n);
      NetAppend(e, Run(o, events[1..]).1, n);
    }
  }

  /** Any number of appears in a row subscribes once. */
  lemma {:induction false} RepeatedAppearsSubscribeOnce(observing: bool, k: nat)
    requires k > 0
    ensures var appears := seq(k, _ => Appear);
            Run(observing, appears).1 == (if observing then [] else [Subscribe(WillShow), Subscribe(WillHide)])
    decreases k
  {
    var appears := seq(k, _ => Appear);
    if k > 1 {
      assert appears[1..] == seq(k - 1, _ => Appear);
      RepeatedAppearsSubscribeOnce(true, k - 1);
    }
  }
}

=== FILE: mail.dfy ===
/**
 * `FeedbackMail`: filling the platform mail composer from an `EmailConfig`
 * and a report, and reacting to the composer's result. The composer and the
 * alerts are effects; the stored completion closure is a value of type `C`.
 */
module Mail {
  import opened Optionals
  import opened Report
  import opened EmailConfigs

  const DefaultSubject := "Feedbackmail"
  const AttachmentMimeType := "image/png"
  const AttachmentFileName := "feedback.png"

  datatype Attachment = Attachment(data: ImageData, mimeType: string, fileName: string)

  /** The composer's fields as `send` sets them; `None` means the setter was not called. */
  datatype Composer = Composer(
    to: seq<string>,
    cc: Option<seq<string>>,
    bcc: Option<seq<string>>,
    subject: string,
    body: string,
    isHTML: bool,
    attachment: Option<Attachment>)

  datatype MailEffect<C> =
    | ShowAlert(title: string, message: string)
    | PresentComposer(composer: Composer)
    | DismissComposer
    | CallCompletion(completion: C)

  /** The stored completion after `send`, and what `send` did. */
  datatype Sending<C> = Sending(stored: Option<C>, effects: seq<MailEffect<C>>)

  /** The composer carries the configuration and the report. */
  ghost predicate ComposerFor(m: Composer, config: EmailConfig, info: SendInformation, png: Image -> Option<ImageData>) {
    && m.to == config.toList
    && m.cc == config.ccList
    && m.bcc == config.bccList
    && m.subject == config.mailSubject.GetOr(DefaultSubject)
    && m.body == FeedbackBodyMessage(info)
    && !m.isHTML
    && (m.attachment.Some? <==> CaptureImageData(info, png).Some?)
    && (m.attachment.Some? ==>
          m.attachment.value == Attachment(CaptureImageData(info, png).value, AttachmentMimeType, AttachmentFileName))
  }

  function ComposerOf(config: EmailConfig, info: SendInformation, png: Image -> Option<ImageData>): (m: Composer)
    ensures ComposerFor(m, config, info, png)
  {
    var subject := match config.mailSubject
      case Some(s) => s
      case None => DefaultSubject;
    var attachment := match CaptureImageData(info, png)
      case Some(data) => Some(Attachment(data, AttachmentMimeType, AttachmentFileName))
      case None => None;
    Composer(config.toList, config.ccList, config.bccList, subject, FeedbackBodyMessage(info), false, attachment)
  }

  /**
   * `send(_:sendInformation:callerViewController:mailSendCompletion:)`.
   * Without mail support: an alert, no composer, and the stored completion
   * untouched. Otherwise the completion is stored and one composer presented.
   */
  function Send<C>(stored: Option<C>, config: EmailConfig, info: SendInformation, canSendMail: bool,
                   png: Image -> Option<ImageData>, completion: C): (r: Sending<C>)
    ensures !canSendMail ==> r == Sending(stored, [ShowAlert("error", "mail can not use")])
    ensures canSendMail ==> r.stored == Some(completion)
    ensures canSendMail ==> |r.effects| == 1 && r.effects[0].PresentComposer?
    ensures canSendMail ==> ComposerFor(r.effects[0].composer, config, info, png)
  {
    if !canSendMail then Sending(stored, [ShowAlert("error", "mail can not use")])
    else Sending(Some(completion), [PresentComposer(ComposerOf(config, info, png))])
  }

  /** `MFMailComposeResult`, with any value outside the four known cases. */
  datatype MailResult = Cancelled | Saved | Sent | Failed | Unknown(raw: int)

  /**
   * `"error:\(error)"` for an optional error whose description is given:
   * `nil` when there is none, `Optional(...)` around the description otherwise.
   */
  function ErrorMessage(error: Option<string>): (m: string)
    ensures |m| >= 9 && m[..6] == "error:"
    ensures error.None? <==> m[6] == 'n'
    ensures error.None? ==> m == "error:nil"
    ensures error.Some? ==> |m| >= 16 && m[6..15] == "Optional(" && m[|m| - 1] == ')' && m[15..|m| - 1] == error.value
  {
    "error:" + match error
      case None => "nil"
      case Some(e) => "Optional(" + e + ")"
  }

  function CompletionCalls<C>(effects: seq<MailEffect<C>>): nat
    decreases |effects|
  {
    if effects == [] then 0
    else (if effects[0].CallCompletion? then 1 else 0) + CompletionCalls(effects[1..])
  }

  /**
   * `mailComposeController(_:didFinishWith:error:)`. The completion is called
   * at most once, only for a sent mail with a stored completion, and only
   * after the composer is dismissed; a failure keeps the composer open and
   * shows the error; an unknown result does nothing.
   */
  function DidFinish<C>(result: MailResult, stored: Option<C>, error: Option<string>): (effects: seq<MailEffect<C>>)
    ensures CompletionCalls(effects) <= 1
    ensures CompletionCalls(effects) == 1 <==> result.Sent? && stored.Some?
    ensures forall i :: 0 <= i < |effects| && effects[i].CallCompletion? ==>
              i > 0 && effects[i - 1] == DismissComposer && Some(effects[i].completion) == stored
    ensures |effects| > 0 && effects[0] == DismissComposer <==> result in {Sent, Saved, Cancelled}
    ensures result.Failed? <==> effects == [ShowAlert("mail send error", ErrorMessage(error))]
    ensures result.Unknown? ==> effects == []
    ensures result in {Saved, Cancelled} || (result.Sent? && stored.None?) ==> effects == [DismissComposer]
    ensures result.Sent? && stored.Some? ==> effects == [DismissComposer, CallCompletion(stored.value)]
  {
    match result
    case Sent =>
      (match stored
       case Some(c) =>
         var effects := [DismissComposer, CallCompletion(c)];
         assert CompletionCalls(effects[1..]) == 1 by {
           assert effects[1..][1..] == [];
         }
         effects
       case None => [DismissComposer])
    case Saved => [DismissComposer]
    case Cancelled => [DismissComposer]
    case Failed => [ShowAlert("mail send error", ErrorMessage(error))]
    case Unknown(_) => []
  }

  /** The alert's message tells the errors apart: different errors give different messages. */
  lemma ErrorMessageInjective(a: Option<string>, b: Option<string>)
    ensures ErrorMessage(a) == ErrorMessage(b) <==> a == b
  {
  }

  /** The composed body reads back into exactly the report's text fields. */
  lemma ComposedBodyReadsBack<C>(stored: Option<C>, config: EmailConfig, info: SendInformation,
                                 png: Image -> Option<ImageData>, completion: C)
    requires NoBreakInText(info)
    ensures var r := Send(stored, config, info, true, png, completion);
            ParseBody(r.effects[0].composer.body) == Some(TextFieldsOf(info))
  {
    BodyRoundTrip(info);
  }

  /** With the corrected initialiser, the bcc argument reaches the composer. */
  lemma BccDelivered<C>(toList: seq<string>, mailSubject: Option<string>, ccList: Option<seq<string>>, bccList: Option<seq<string>>,
                        stored: Option<C>, info: SendInformation, png: Image -> Option<ImageData>, completion: C)
    ensures var r := Send(stored, InitListsIntended(toList, mailSubject, ccList, bccList), info, true, png, completion);
            r.effects[0].composer.bcc == bccList && r.effects[0].composer.cc == ccList
  {
  }

  /** With a configuration from the multi-list initialiser as written, bcc recipients are the cc recipients. */
  lemma BccMirrorsCc<C>(toList: seq<string>, mailSubject: Option<string>, ccList: Option<seq<string>>, bccList: Option<seq<string>>,
                        stored: Option<C>, info: SendInformation, png: Image -> Option<ImageData>, completion: C)
    ensures var r := Send(stored, InitLists(toList, mailSubject, ccList, bccList), info, true, png, completion);
            r.effects[0].composer.bcc == r.effects[0].composer.cc == ccList
  {
  }
}

=== FILE: optional_order.dfy ===
/**
 * The file-private `<` on optionals that FeedbackViewController.swift declares
 * (a migration shim left over from when Swift dropped optional comparison).
 * The wrapped type's own `<` is passed in as `less`.
 */
module OptionalOrder {
  import opened Optionals

  /** `lhs < rhs` on `T?`: an absent value sorts before every present one. */
  function Less<T>(lhs: Option<T>, rhs: Option<T>, less: (T, T) -> bool): (r: bool)
    ensures lhs.None? && rhs.Some? ==> r
    ensures lhs.Some? && rhs.Some? ==> (r <==> less(lhs.value, rhs.value))
    ensures rhs.None? ==> !r
  {
    match (lhs, rhs)
    case (Some(l), Some(r)) => less(l, r)
    case (None, Some(_)) => true
    case _ => false
  }

  /** Lifting a strict order of `T` gives a strict order of `T?`. */
  lemma LessIsStrictOrder<T(!new)>(less: (T, T) -> bool)
    requires forall x :: !less(x, x)
    requires forall x, y, z :: less(x, y) && less(y, z) ==> less(x, z)
    ensures forall x: Option<T> :: !Less(x, x, less)
    ensures forall x: Option<T>, y: Option<T>, z: Option<T> ::
              Less(x, y, less) && Less(y, z, less) ==> Less(x, z, less)
  {
  }

  /** Lifting a total (trichotomous) order of `T` keeps it total on `T?`. */
  lemma LessIsTotal<T(!new)>(less: (T, T) -> bool)
    requires forall x, y :: x != y ==> less(x, y) || less(y, x)
    ensures forall x: Option<T>, y: Option<T> :: x != y ==> Less(x, y, less) || Less(y, x, less)
  {
  }
}

=== FILE: optionals.dfy ===
/** Swift's optional type `T?`, written out as a datatype. */
module Optionals {

  datatype Option<+T> = None | Some(value: T) {

    /** Swift's `x ?? default`. */
    function GetOr(default: T): T {
      match this
      case Some(v) => v
      case None => default
    }
  }
}

=== FILE: parent_view.dfy ===
/**
 * `getParentView(_:)`: the view of the outermost ancestor of a controller,
 * computed once per popup and then served from a cache.
 */
module ParentView {
  import opened Optionals

  /** A view, opaque. */
  datatype View = View(handle: nat)

  /** A controller and the chain of its `parent` links. */
  datatype Ancestry = Ancestry(view: View, parent: Option<Ancestry>)

  ghost predicate IsAncestorOrSelf(a: Ancestry, c: Ancestry)
    decreases c
  {
    a == c || (c.parent.Some? && IsAncestorOrSelf(a, c.parent.value))
  }

  /** The `while let parent = sourceController.parent` walk. */
  function Outermost(c: Ancestry): (r: Ancestry)
    ensures r.parent.None?
    ensures IsAncestorOrSelf(r, c)
    decreases c
  {
    match c.parent
    case None => c
    case Some(p) => Outermost(p)
  }

  /** A controller has exactly one outermost ancestor. */
  lemma {:induction false} OutermostUnique(a: Ancestry, c: Ancestry)
    requires IsAncestorOrSelf(a, c) && a.parent.None?
    ensures Outermost(c) == a
    decreases c
  {
    if a != c {
      OutermostUnique(a, c.parent.value);
    }
  }

  /**
   * `getParentView(_:)`: returns the view together with the new cache. A
   * cached view wins over the controller passed in.
   */
  function GetParentView(cache: Option<View>, c: Ancestry): (r: (View, Option<View>))
    ensures r.1 == Some(r.0)
    ensures cache.Some? ==> r.0 == cache.value
    ensures cache.None? ==> exists a :: IsAncestorOrSelf(a, c) && a.parent.None? && r.0 == a.view
  {
    match cache
    case Some(v) => (v, cache)
    case None =>
      var top := Outermost(c);
      (top.view, Some(top.view))
  }

  /** Once filled, the cache answers every later call, whatever controller it is given. */
  lemma CacheIsSticky(cache: Option<View>, c: Ancestry, later: Ancestry)
    ensures var (v, cache') := GetParentView(cache, c);
            GetParentView(cache', later) == (v, cache')
  {
  }
}

=== FILE: picker.dfy ===
/**
 * The category picker of the feedback form: one component of six rows, each
 * row titled by a fixed category name. Row 5 is "other", and so is every row
 * outside 0..4, including the -1 UIKit reports when nothing is selected.
 */
module Picker {
  import opened Optionals

  /** The category names, indexed by row. */
  const Titles: seq<string> := ["表示崩れ", "カクカクする", "バグかも", "使いづらい", "見辛い", "その他"]

  /** The row whose title every out-of-range row shares. */
  const OtherRow := 5

  /** `numberOfComponents(in:)`: the picker has a single component. */
  function NumberOfComponents(): (n: int)
    ensures n == 1
  {
    1
  }

  /** `pickerView(_:numberOfRowsInComponent:)`: the same for every component. */
  function NumberOfRows(component: int): (n: int)
    ensures n == |Titles|
  {
    6
  }

  /** The row a selection index resolves to when the form reads its title. */
  function EffectiveRow(row: int): (r: nat)
    ensures r < |Titles|
    ensures 0 <= row < OtherRow ==> r == row
    ensures !(0 <= row < OtherRow) ==> r == OtherRow
  {
    if 0 <= row < OtherRow then row else OtherRow
  }

  /** `pickerView(_:titleForRow:forComponent:)`: total, never absent. */
  function TitleForRow(row: int): (title: Option<string>)
    ensures title.Some?
    ensures title.value == Titles[EffectiveRow(row)]
  {
    match row
    case 0 => Some("表示崩れ")
    case 1 => Some("カクカクする")
    case 2 => Some("バグかも")
    case 3 => Some("使いづらい")
    case 4 => Some("見辛い")
    case _ => Some("その他")
  }

  /** First index of `x` in `xs`, if any. */
  function IndexOf<T(==)>(xs: seq<T>, x: T): (i: Option<nat>)
    ensures i.Some? ==> i.value < |xs| && xs[i.value] == x
    ensures i.Some? ==> forall k :: 0 <= k < i.value ==> xs[k] != x
    ensures i.None? <==> x !in xs
  {
    if xs == [] then None
    else if xs[0] == x then Some(0)
    else match IndexOf(xs[1..], x)
      case None => None
      case Some(k) => Some(k + 1)
  }

  /** The row showing a given category name, if it is one. */
  function RowOfTitle(title: string): Option<nat> {
    IndexOf(Titles, title)
  }

  /** Every component of the picker, that is its only one, lists all the category titles. */
  lemma EveryComponentListsAllTitles(component: int)
    requires 0 <= component < NumberOfComponents()
    ensures NumberOfRows(component) == |Titles|
    ensures forall row :: 0 <= row < NumberOfRows(component) ==> TitleForRow(row) == Some(Titles[row])
  {
  }

  /** The six titles are pairwise different. */
  lemma TitlesDistinct()
    ensures forall i, j :: 0 <= i < j < |Titles| ==> Titles[i] != Titles[j]
  {
  }

  /** Reading a title back gives the row it came from. */
  lemma RowTitleRoundTrip(row: int)
    requires 0 <= row < NumberOfRows(0)
    ensures RowOfTitle(TitleForRow(row).value) == Some(row)
  {
  }

  /** Every category name is the title of the row it is found at. */
  lemma TitleRowRoundTrip(title: string)
    requires RowOfTitle(title).Some?
    ensures TitleForRow(RowOfTitle(title).value) == Some(title)
  {
  }

  /** Every row, in range or not, shows one of the six category names. */
  lemma EveryTitleIsACategory(row: int)
    ensures TitleForRow(row).value in Titles
    ensures RowOfTitle(TitleForRow(row).value) == Some(EffectiveRow(row))
  {
  }
}

=== FILE: popup.dfy ===
/**
 * The popup's lifecycle and the process-wide flag `FeedbackUseState.using`
 * that keeps a second feedback popup from opening while one is showing.
 *
 * Presenting refuses while the flag is set, and also when the popup cannot be
 * instantiated; the flag is set only once an instance exists and is cleared
 * when a dismiss animation completes. Geometry and animation curves are not
 * modelled: an animation is its start effect plus a completion step.
 */
module Popup {
  import opened Optionals
  import opened ParentView

  /** The layout resource the popup is instantiated from, opaque. */
  datatype Storyboard = Storyboard(name: string)

  /**
   * The storyboard cache `FeedbackKitStatic.storyboard` behind
   * `instantiateInitialViewController()`. No line assigns it: the one-time
   * loader's only assignment is commented out, and it names
   * `FeedbackUseState.storyboard`, a property that does not exist. So the
   * cache is always absent.
   */
  const StoryboardCache: Option<Storyboard> := None

  /** The stored properties of one FeedbackViewController that the lifecycle reads. */
  datatype PopupController<A> = PopupController(
    sendAction: Option<A>,
    caller: Option<Ancestry>,   // callerViewController
    overlay: bool,              // overlayView and effectView are assigned
    parentView: Option<View>)   // the getParentView cache

  function Fresh<A>(): PopupController<A> {
    PopupController(None, None, false, None)
  }

  /**
   * `instantiateInitialViewController()`: a fresh popup exactly when there is
   * a storyboard. The input stands for the whole outcome, so a storyboard
   * whose initial controller is missing or is not a FeedbackViewController
   * (the `as?` cast giving nil) is passed here as `None`.
   */
  function Instantiate<A>(storyboard: Option<Storyboard>): (p: Option<PopupController<A>>)
    ensures p.Some? <==> storyboard.Some?
    ensures p.Some? ==> p.value == Fresh()
  {
    if storyboard.Some? then Some(Fresh()) else None
  }

  datatype PopupEffect =
    | AddChild(caller: Ancestry)   // addChildViewController + didMove
    | AddOverlay(parent: View)     // overlay, dimming layer and popup added to the parent view
    | SlideIn                      // the 0.35 s appearance animation starts
    | SlideOut                     // the 0.35 s dismissal animation starts
    | RemoveOverlay                // the dismissal animation's completion

  /**
   * `popupViewController(_:)`: attach to the caller and, unless the popup's
   * view is already in the parent view, install the overlay and slide in.
   * The early return leaves the overlay unassigned.
   */
  function PopupViewController<A>(p: PopupController<A>, caller: Ancestry, alreadyAdded: bool): (r: (PopupController<A>, seq<PopupEffect>))
    ensures r.0.caller == Some(caller)
    ensures r.0.overlay <==> p.overlay || !alreadyAdded
    ensures r.0.parentView.Some? && (p.parentView.Some? ==> r.0.parentView == p.parentView)
    ensures r.0.parentView == GetParentView(p.parentView, caller).1
    ensures p.parentView.None? ==> r.0.parentView == Some(Outermost(caller).view)
    ensures r.0.sendAction == p.sendAction
    ensures alreadyAdded ==> r.1 == [AddChild(caller)]
    ensures !alreadyAdded ==> r.1 == [AddChild(caller), AddOverlay(r.0.parentView.value), SlideIn]
  {
    var (parent, cache) := GetParentView(p.parentView, caller);
    var attached := p.(caller := Some(caller), parentView := cache);
    if alreadyAdded then (attached, [AddChild(caller)])
    else (attached.(overlay := true), [AddChild(caller), AddOverlay(parent), SlideIn])
  }

  /** The flag after a present, the popup that opened (if any), and the effects. */
  datatype Presented<A> = Presented(using: bool, popup: Option<PopupController<A>>, effects: seq<PopupEffect>)

  /** `presentFeedbackViewController(_:action:)` with the instantiation outcome as input. */
  function PresentFeedbackViewController<A>(
    using: bool, instance: Option<PopupController<A>>, caller: Ancestry, action: A, alreadyAdded: bool): (r: Presented<A>)
    ensures using ==> r == Presented(true, None, [])
    ensures instance.None? ==> r == Presented(using, None, [])
    ensures r.using <==> using || instance.Some?
    ensures r.popup.Some? <==> !using && instance.Some?
    ensures r.popup.Some? ==> r.popup.value.sendAction == Some(action) && r.popup.value.caller == Some(caller)
    ensures r.popup.Some? ==> |r.effects| > 0 && r.effects[0] == AddChild(caller)
  {
    if using then Presented(using, None, [])
    else match instance
      case None => Presented(using, None, [])
      case Some(p) =>
        var (p', effects) := PopupViewController(p.(sendAction := Some(action)), caller, alreadyAdded);
        Presented(true, Some(p'), effects)
  }

  /**
   * `dismissFeedbackViewController()`: starts the dismissal animation when
   * the popup has a caller and an overlay, and does nothing otherwise. The
   * popup's fields are left as they are.
   */
  function DismissFeedbackViewController<A>(p: PopupController<A>): (effects: seq<PopupEffect>)
    ensures effects == [] || effects == [SlideOut]
    ensures effects == [SlideOut] <==> p.caller.Some? && p.overlay
  {
    if p.caller.Some? && p.overlay then [SlideOut] else []
  }

  /**
   * The dismissal animation's completion: the overlay goes and the flag is
   * cleared, whatever it was before.
   */
  function DismissCompleted(): (r: (bool, seq<PopupEffect>))
    ensures !r.0 && r.1 == [RemoveOverlay]
  {
    (false, [RemoveOverlay])
  }

  /** With the storyboard cache as the source leaves it, presenting never opens anything. */
  lemma PresentAlwaysRefused<A>(using: bool, caller: Ancestry, action: A, alreadyAdded: bool)
    ensures PresentFeedbackViewController(using, Instantiate<A>(StoryboardCache), caller, action, alreadyAdded)
            == Presented(using, None, [])
  {
  }

  /**
   * A popup whose view was already in the parent view never gets an overlay,
   * so dismissing it does nothing and the flag it set stays set. In the source
   * this case is not reached: present always attaches a freshly instantiated
   * popup, and the popup's view is added to the overlay rather than to the
   * parent view, so the guard's containment test fails for it. The lemma
   * states what the guard would do, not a reachable stuck state.
   */
  lemma AlreadyAddedNeverDismisses<A>(instance: PopupController<A>, caller: Ancestry, action: A)
    requires !instance.overlay
    ensures var r := PresentFeedbackViewController(false, Some(instance), caller, action, true);
            r.using && r.popup.Some? && DismissFeedbackViewController(r.popup.value) == []
  {
  }

  // ---------------------------------------------------------------------------
  // Runs of present and dismiss events

  datatype Event<A> =
    | Present(instance: Option<PopupController<A>>, caller: Ancestry, action: A, alreadyAdded: bool)
    | Dismiss                 // dismissFeedbackViewController() on the showing popup
    | AnimationDone           // the earliest scheduled dismissal animation completes

  /**
   * The flag, the popup on screen, the dismissal animations started on it
   * (`closing`), and those still running for popups no longer tracked
   * (`stray`): popups already gone, or covered by a newer popup.
   * The dismiss guard reads only fields that nothing clears, so a second
   * dismiss during the slide-out starts a second animation, and each
   * animation's completion clears the flag. All animations last equally long,
   * so they complete in the order they started: strays first.
   */
  datatype Lifecycle<A> = Lifecycle(using: bool, live: Option<PopupController<A>>, closing: nat, stray: nat)

  /** The flag is set only while a popup is on screen; this holds for every run. */
  ghost predicate FlagImpliesPopup<A>(s: Lifecycle<A>) {
    (s.using ==> s.live.Some?) && (s.closing > 0 ==> s.live.Some?)
  }

  /** The flag is set exactly while a popup is on screen, with no second dismissal pending. */
  ghost predicate Inv<A>(s: Lifecycle<A>) {
    && (s.using <==> s.live.Some?)
    && (s.closing > 0 ==> s.live.Some?)
    && s.closing <= 1
    && s.stray == 0
  }

  /**
   * One event; the number says how many popups it opened. Every event keeps
   * the flag from being set with nothing on screen. Every event except a
   * second dismiss during the slide-out also keeps the flag in step with the
   * screen, and opens a popup only when none is showing.
   */
  function Step<A>(s: Lifecycle<A>, e: Event<A>): (r: (Lifecycle<A>, nat))
    ensures r.1 <= 1
    ensures FlagImpliesPopup(s) ==> FlagImpliesPopup(r.0)
    ensures Inv(s) && !(e.Dismiss? && s.closing > 0) ==> Inv(r.0) && (r.1 == 1 ==> s.live.None?)
  {
    match e
    case Present(instance, caller, action, alreadyAdded) =>
      var p := PresentFeedbackViewController(s.using, instance, caller, action, alreadyAdded);
      if p.popup.Some? then (Lifecycle(p.using, p.popup, 0, s.stray + s.closing), 1)
      else (s.(using := p.using), 0)
    case Dismiss =>
      if s.live.Some? && DismissFeedbackViewController(s.live.value) != [] then (s.(closing := s.closing + 1), 0)
      else (s, 0)
    case AnimationDone =>
      if s.stray > 0 then (s.(using := DismissCompleted().0, stray := s.stray - 1), 0)
      else if s.closing > 0 then (Lifecycle(DismissCompleted().0, None, 0, s.closing - 1), 0)
      else (s, 0)
  }

  /** The state after a run of events, and how many popups the run opened. */
  function Run<A>(s: Lifecycle<A>, events: seq<Event<A>>): (Lifecycle<A>, nat)
    decreases |events|
  {
    if events == [] then (s, 0)
    else
      var (s', n) := Step(s, events[0]);
      var (t, m) := Run(s', events[1..]);
      (t, n + m)
  }

  /** No dismiss in the run reaches a popup whose dismissal animation is already running. */
  ghost predicate NoRepeatedDismiss<A>(s: Lifecycle<A>, events: seq<Event<A>>)
    decreases |events|
  {
    events == [] ||
    (!(events[0].Dismiss? && s.closing > 0) && NoRepeatedDismiss(Step(s, events[0]).0, events[1..]))
  }

  /** Over any run, the flag is never set with nothing on screen. */
  lemma {:induction false} RunKeepsFlagImpliesPopup<A>(s: Lifecycle<A>, events: seq<Event<A>>)
    requires FlagImpliesPopup(s)
    ensures FlagImpliesPopup(Run(s, events).0)
    decreases |events|
  {
    if events != [] {
      RunKeepsFlagImpliesPopup(Step(s, events[0]).0, events[1..]);
    }
  }

  /** A run that never dismisses a popup twice keeps the flag in step with the screen. */
  lemma {:induction false} RunKeepsInv<A>(s: Lifecycle<A>, events: seq<Event<A>>)
    requires Inv(s)
    requires NoRepeatedDismiss(s, events)
    ensures Inv(Run(s, events).0)
    decreases |events|
  {
    if events != [] {
      RunKeepsInv(Step(s, events[0]).0, events[1..]);
    }
  }

  /**
   * Presents with no dismissal in between open at most one popup, and none
   * at all when one is already showing.
   */
  lemma {:induction false} PresentsOpenAtMostOne<A>(s: Lifecycle<A>, events: seq<Event<A>>)
    requires Inv(s)
    requires forall i :: 0 <= i < |events| ==> events[i].Present?
    ensures Run(s, events).1 <= (if s.using then 0 else 1)
    decreases |events|
  {
    if events != [] {
      var s' := Step(s, events[0]).0;
      PresentsOpenAtMostOne(s', events[1..]);
      assert Step(s, events[0]).1 == 1 ==> s'.using;
    }
  }

  /** The state before any popup was presented. */
  function Idle<A>(): (s: Lifecycle<A>)
    ensures Inv(s) && !s.using && s.live.None?
  {
    Lifecycle(false, None, 0, 0)
  }

  /** After a completed dismissal the next present with an instance opens again. */
  lemma DismissReopens<A>(p: PopupController<A>, caller: Ancestry, action: A, next: PopupController<A>)
    ensures var (s1, _) := Step(Idle(), Present(Some(p), caller, action, false));
            var (s2, _) := Step(s1, Dismiss);
            var (s3, _) := Step(s2, AnimationDone);
            s1.using && !s3.using && s3.live.None? &&
            Step(s3, Present(Some(next), caller, action, false)).1 == 1
  {
  }

  /**
   * Dismissing popup A twice during its slide-out starts two animations.
   * The first completion removes A and clears the flag, so popup B can open;
   * the second completion then clears the flag while B is on screen, and a
   * third popup C opens on top of B.
   */
  lemma DoubleDismissOpensTwo<A>(a: PopupController<A>, b: PopupController<A>, c: PopupController<A>,
                                 caller: Ancestry, action: A)
    ensures var s1 := Run(Idle(), [Present(Some(a), caller, action, false), Dismiss, Dismiss, AnimationDone]).0;
            var s2 := Step(s1, Present(Some(b), caller, action, false));
            var s3 := Step(s2.0, AnimationDone).0;
            && s2.1 == 1 && s2.0.using
            && !s3.using && s3.live.Some?
            && Step(s3, Present(Some(c), caller, action, false)).1 == 1
  {
    var events := [Present(Some(a), caller, action, false), Dismiss, Dismiss, AnimationDone];
    var t0 := Idle();
    var t1 := Step(t0, events[0]).0;
    var t2 := Step(t1, events[1]).0;
    var t3 := Step(t2, events[2]).0;
    var t4 := Step(t3, events[3]).0;
    assert t3.closing == 2;
    assert !t4.using && t4.live.None? && t4.stray == 1;
    assert Run(t3, events[3..]).0 == t4 by { assert events[3..][1..] == []; }
    assert Run(t2, events[2..]).0 == t4 by { assert events[2..][1..] == events[3..]; }
    assert Run(t1, events[1..]).0 == t4 by { assert events[1..][1..] == events[2..]; }
    assert Run(t0, events).0 == t4;
  }

  /**
   * A popup covered by a newer one keeps its pending completion: after B's
   * dismissal starts and C opens over it, B's completion still clears the
   * flag while C is on screen.
   */
  lemma CoveredCompletionStillClears<A>(a: PopupController<A>, b: PopupController<A>, c: PopupController<A>,
                                        caller: Ancestry, action: A)
    ensures var t4 := Run(Idle(), [Present(Some(a), caller, action, false), Dismiss, Dismiss, AnimationDone]).0;
            var t5 := Step(t4, Present(Some(b), caller, action, false)).0;
            var t6 := Step(t5, Dismiss).0;
            var t7 := Step(t6, AnimationDone).0;
            var t8 := Step(t7, Present(Some(c), caller, action, false)).0;
            var t9 := Step(t8, AnimationDone).0;
            !t9.using && t9.live == t8.live && t8.live.Some?
  {
    DoubleDismissOpensTwo(a, b, c, caller, action);
  }

  // ---------------------------------------------------------------------------
  // The dismissal as evidently intended

  /**
   * `dismissFeedbackViewController()` if it also cleared `overlayView` when
   * it starts the slide-out: the same effects, and a second call does nothing.
   */
  function DismissIntended<A>(p: PopupController<A>): (r: (PopupController<A>, seq<PopupEffect>))
    ensures r.1 == DismissFeedbackViewController(p)
    ensures DismissFeedbackViewController(r.0) == []
    ensures r.0.caller == p.caller && r.0.sendAction == p.sendAction && r.0.parentView == p.parentView
  {
    (p.(overlay := false), DismissFeedbackViewController(p))
  }

  /** `Step` with the intended dismissal; the other events are unchanged. */
  function StepIntended<A>(s: Lifecycle<A>, e: Event<A>): (r: (Lifecycle<A>, nat))
    ensures r.1 <= 1
    ensures InvIntended(s) ==> InvIntended(r.0) && (r.1 == 1 ==> s.live.None?)
  {
    match e
    case Dismiss =>
      if s.live.Some? && DismissFeedbackViewController(s.live.value) != [] then
        var (p', _) := DismissIntended(s.live.value);
        (s.(live := Some(p'), closing := s.closing + 1), 0)
      else (s, 0)
    case _ => Step(s, e)
  }

  /** `Inv`, plus: a popup whose slide-out is running no longer passes the dismiss guard. */
  ghost predicate InvIntended<A>(s: Lifecycle<A>) {
    Inv(s) && (s.closing > 0 ==> DismissFeedbackViewController(s.live.value) == [])
  }

  function RunIntended<A>(s: Lifecycle<A>, events: seq<Event<A>>): (Lifecycle<A>, nat)
    decreases |events|
  {
    if events == [] then (s, 0)
    else
      var (s', n) := StepIntended(s, events[0]);
      var (t, m) := RunIntended(s', events[1..]);
      (t, n + m)
  }

  /** With the intended dismissal, every run from the idle state keeps the flag in step with the screen. */
  lemma {:induction false} RunIntendedKeepsInv<A>(s: Lifecycle<A>, events: seq<Event<A>>)
    requires InvIntended(s)
    ensures Inv(RunIntended(s, events).0)
    ensures InvIntended(RunIntended(s, events).0)
    decreases |events|
  {
    if events != [] {
      RunIntendedKeepsInv(StepIntended(s, events[0]).0, events[1..]);
    }
  }

  /** Every run from the idle state, with the intended dismissal, keeps the invariant. */
  lemma IntendedFromIdle<A>(events: seq<Event<A>>)
    ensures Inv(RunIntended(Idle<A>(), events).0)
  {
    RunIntendedKeepsInv(Idle<A>(), events);
  }
}

=== FILE: report.dfy ===
/**
 * `SendInformation`, the record one feedback submission produces, and its
 * plain-text rendering `feedbackBodyMessage` (FeedbackViewController.swift).
 *
 * `ParseBody` is an independent reading of the rendered text back into the
 * four text fields; `BodyRoundTrip` shows that the rendering loses nothing as
 * long as no field value contains a line break.
 */
module Report {
  import opened Optionals

  /** A screenshot. UIKit image objects are opaque here. */
  datatype Image = Image(handle: nat)

  /** PNG bytes of an image, opaque. */
  datatype ImageData = ImageData(handle: nat)

  datatype SendInformation = SendInformation(
    selectedTitle: Option<string>,
    comment: Option<string>,
    captureImage: Option<Image>,
    reporterName: Option<string>,
    className: Option<string>)

  /** `SendInformation()`: every field absent. */
  const EmptyInformation := SendInformation(None, None, None, None, None)

  const TitleLabel := "Title"
  const CommentLabel := "Comment"
  const ReporterLabel := "Reporter"
  const ClassNameLabel := "ClassName"

  /** The four text fields the body shows, in body order. */
  datatype TextFields = TextFields(
    title: Option<string>,
    comment: Option<string>,
    reporter: Option<string>,
    className: Option<string>)

  function TextFieldsOf(info: SendInformation): TextFields {
    TextFields(info.selectedTitle, info.comment, info.reporterName, info.className)
  }

  predicate NoTextField(info: SendInformation) {
    info.selectedTitle.None? && info.comment.None? && info.reporterName.None? && info.className.None?
  }

  /** What a labelled field opens with: `Label: [`. */
  function Opening(name: string): string {
    name + ": ["
  }

  /** `Label: [value]`. */
  function Labelled(name: string, value: string): string {
    Opening(name) + value + "]"
  }

  /** A labelled field followed by a line break, or nothing when absent. */
  function Line(name: string, field: Option<string>): string {
    match field
    case None => ""
    case Some(v) => Labelled(name, v) + "\n"
  }

  /** The last labelled field carries no line break. */
  function LastLine(name: string, field: Option<string>): string {
    match field
    case None => ""
    case Some(v) => Labelled(name, v)
  }

  function ClassNamePart(info: SendInformation): string {
    LastLine(ClassNameLabel, info.className)
  }

  function ReporterPart(info: SendInformation): string {
    Line(ReporterLabel, info.reporterName) + ClassNamePart(info)
  }

  function CommentPart(info: SendInformation): string {
    Line(CommentLabel, info.comment) + ReporterPart(info)
  }

  /**
   * `feedbackBodyMessage`: the present text fields in the order Title,
   * Comment, Reporter, ClassName; the first three end with a line break, the
   * class name does not. The screenshot never appears in the body.
   */
  function FeedbackBodyMessage(info: SendInformation): (body: string)
    ensures body == "" <==> NoTextField(info)
    ensures info.className.Some? ==> body[|body| - 1] == ']'
    ensures info.className.None? && body != "" ==> body[|body| - 1] == '\n'
  {
    Line(TitleLabel, info.selectedTitle) + CommentPart(info)
  }

  /**
   * `captureImageData`: absent without a screenshot, otherwise whatever the
   * PNG encoder (a platform call, passed in as `png`) yields.
   */
  function CaptureImageData(info: SendInformation, png: Image -> Option<ImageData>): (data: Option<ImageData>)
    ensures info.captureImage.None? ==> data.None?
    ensures info.captureImage.Some? ==> data == png(info.captureImage.value)
  {
    match info.captureImage
    case None => None
    case Some(image) => png(image)
  }

  // ---------------------------------------------------------------------------
  // Reading a body back

  /** Index of the first line break in `s`, or `|s|` when there is none. */
  function FirstNewline(s: string): (j: nat)
    ensures j <= |s|
    ensures j < |s| ==> s[j] == '\n'
    ensures forall k :: 0 <= k < j ==> s[k] != '\n'
  {
    if s == [] then 0
    else if s[0] == '\n' then 0
    else 1 + FirstNewline(s[1..])
  }

  /** Reads one `Label: [value]` line off the front of `s`, if it is there. */
  function TakeLine(name: string, s: string): (string, Option<string>)
  {
    var p := Opening(name);
    var j := FirstNewline(s);
    if p <= s && |p| < j < |s| && s[j - 1] == ']' then (s[j + 1..], Some(s[|p|..j - 1]))
    else (s, None)
  }

  /** Reads a final `Label: [value]` with no line break, if `s` is exactly that. */
  function TakeLast(name: string, s: string): (string, Option<string>)
  {
    var p := Opening(name);
    if p <= s && |p| < |s| && s[|s| - 1] == ']' && FirstNewline(s) == |s| then ("", Some(s[|p|..|s| - 1]))
    else (s, None)
  }

  /** Reads a body back into its four text fields; `None` if text is left over. */
  function ParseBody(body: string): Option<TextFields>
  {
    var (s1, title) := TakeLine(TitleLabel, body);
    var (s2, comment) := TakeLine(CommentLabel, s1);
    var (s3, reporter) := TakeLine(ReporterLabel, s2);
    var (s4, className) := TakeLast(ClassNameLabel, s3);
    if s4 == "" then Some(TextFields(title, comment, reporter, className)) else None
  }

  predicate NoBreak(field: Option<string>) {
    field.Some? ==> '\n' !in field.value
  }

  predicate NoBreakInText(info: SendInformation) {
    NoBreak(info.selectedTitle) && NoBreak(info.comment) && NoBreak(info.reporterName) && NoBreak(info.className)
  }

  /** A labelled value with no line break in it contains no line break at all. */
  lemma LabelledHasNoBreak(name: string, v: string)
    requires '\n' !in name && '\n' !in v
    ensures forall k :: 0 <= k < |Labelled(name, v)| ==> Labelled(name, v)[k] != '\n'
  {
  }

  lemma TakeLineOfLine(name: string, v: string, rest: string)
    requires '\n' !in name && '\n' !in v
    ensures TakeLine(name, Labelled(name, v) + "\n" + rest) == (rest, Some(v))
  {
    var p := Opening(name);
    var l := Labelled(name, v);
    var s := l + "\n" + rest;
    var m := |l|;
    LabelledHasNoBreak(name, v);
    assert s[m] == '\n';
    assert forall k :: 0 <= k < m ==> s[k] == l[k];
    var j := FirstNewline(s);
    assert j == m;
    assert p <= s by {
      assert s[..|p|] == l[..|p|] == p;
    }
    assert s[|p|..j - 1] == v by {
      assert s[|p|..j - 1] == l[|p|..|l| - 1];
    }
    assert s[j + 1..] == rest;
  }

  lemma TakeLastOfLast(name: string, v: string)
    requires '\n' !in name && '\n' !in v
    ensures TakeLast(name, Labelled(name, v)) == ("", Some(v))
  {
  }

  /** `s` cannot open with two labels that differ at position `k`. */
  lemma OpeningClash(l1: string, l2: string, s: string, k: nat)
    requires k < |l1| && k < |l2| && l1[k] != l2[k]
    requires Opening(l2) <= s
    ensures !(Opening(l1) <= s)
  {
    assert s[k] == Opening(l2)[k] == l2[k];
    assert Opening(l1)[k] == l1[k];
  }

  lemma NoLineAt(name: string, s: string)
    requires !(Opening(name) <= s)
    ensures TakeLine(name, s) == (s, None)
    ensures TakeLast(name, s) == (s, None)
  {
  }

  lemma OpensWith(name: string, v: string, rest: string)
    ensures Opening(name) <= Labelled(name, v) + rest
  {
  }

  lemma ClassNameStep(info: SendInformation)
    requires NoBreakInText(info)
    ensures TakeLast(ClassNameLabel, ClassNamePart(info)) == ("", info.className)
  {
  }

  lemma ReporterStep(info: SendInformation)
    requires NoBreakInText(info)
    ensures TakeLine(ReporterLabel, ReporterPart(info)) == (ClassNamePart(info), info.reporterName)
  {
    match info.reporterName
    case Some(v) =>
      assert ReporterPart(info) == Labelled(ReporterLabel, v) + "\n" + ClassNamePart(info);
      TakeLineOfLine(ReporterLabel, v, ClassNamePart(info));
    case None =>
      assert ReporterPart(info) == ClassNamePart(info);
      if info.className.Some? {
        OpensWith(ClassNameLabel, info.className.value, "");
        OpeningClash(ReporterLabel, ClassNameLabel, ReporterPart(info), 0);
      }
      NoLineAt(ReporterLabel, ReporterPart(info));
  }

  lemma CommentStep(info: SendInformation)
    requires NoBreakInText(info)
    ensures TakeLine(CommentLabel, CommentPart(info)) == (ReporterPart(info), info.comment)
  {
    match info.comment
    case Some(v) =>
      assert CommentPart(info) == Labelled(CommentLabel, v) + "\n" + ReporterPart(info);
      TakeLineOfLine(CommentLabel, v, ReporterPart(info));
    case None =>
      var s := CommentPart(info);
      assert s == ReporterPart(info);
      if info.reporterName.Some? {
        OpensWith(ReporterLabel, info.reporterName.value, "\n" + ClassNamePart(info));
        assert s == Labelled(ReporterLabel, info.reporterName.value) + ("\n" + ClassNamePart(info));
        OpeningClash(CommentLabel, ReporterLabel, s, 0);
      } else if info.className.Some? {
        OpensWith(ClassNameLabel, info.className.value, "");
        OpeningClash(CommentLabel, ClassNameLabel, s, 1);
      }
      NoLineAt(CommentLabel, s);
  }

  lemma TitleStep(info: SendInformation)
    requires NoBreakInText(info)
    ensures TakeLine(TitleLabel, FeedbackBodyMessage(info)) == (CommentPart(info), info.selectedTitle)
  {
    var body := FeedbackBodyMessage(info);
    match info.selectedTitle
    case Some(v) =>
      assert body == Labelled(TitleLabel, v) + "\n" + CommentPart(info);
      TakeLineOfLine(TitleLabel, v, CommentPart(info));
    case None =>
      assert body == CommentPart(info);
      if info.comment.Some? {
        OpensWith(CommentLabel, info.comment.value, "\n" + ReporterPart(info));
        assert body == Labelled(CommentLabel, info.comment.value) + ("\n" + ReporterPart(info));
        OpeningClash(TitleLabel, CommentLabel, body, 0);
      } else if info.reporterName.Some? {
        OpensWith(ReporterLabel, info.reporterName.value, "\n" + ClassNamePart(info));
        assert body == Labelled(ReporterLabel, info.reporterName.value) + ("\n" + ClassNamePart(info));
        OpeningClash(TitleLabel, ReporterLabel, body, 0);
      } else if info.className.Some? {
        OpensWith(ClassNameLabel, info.className.value, "");
        OpeningClash(TitleLabel, ClassNameLabel, body, 0);
      }
      NoLineAt(TitleLabel, body);
  }

  /**
   * The body is a faithful rendering: reading it back gives exactly the four
   * text fields, present or absent, as long as no value contains a line break.
   */
  lemma BodyRoundTrip(info: SendInformation)
    requires NoBreakInText(info)
    ensures ParseBody(FeedbackBodyMessage(info)) == Some(TextFieldsOf(info))
  {
    TitleStep(info);
    CommentStep(info);
    ReporterStep(info);
    ClassNameStep(info);
  }

  /** Two reports whose text fields differ render to different bodies. */
  lemma BodyDeterminesFields(a: SendInformation, b: SendInformation)
    requires NoBreakInText(a) && NoBreakInText(b)
    requires FeedbackBodyMessage(a) == FeedbackBodyMessage(b)
    ensures TextFieldsOf(a) == TextFieldsOf(b)
  {
    BodyRoundTrip(a);
    BodyRoundTrip(b);
  }

  /**
   * Without the line-break restriction the body is ambiguous: a title that
   * itself contains `]`, a line break and `Comment: [` reads like a second field.
   */
  lemma BodyAmbiguousWithBreaks()
    ensures var a := EmptyInformation.(selectedTitle := Some("x]\nComment: [y"));
            var b := EmptyInformation.(selectedTitle := Some("x"), comment := Some("y"));
            TextFieldsOf(a) != TextFieldsOf(b) && FeedbackBodyMessage(a) == FeedbackBodyMessage(b)
  {
  }
}

=== FILE: report_class.dfy ===
/**
 * `searchReportClass(_:)` and `getReportClassName()`: finding the screen the
 * user is looking at by walking down from the window's root controller.
 * A navigation controller is followed into the top of its stack, any other
 * controller into the controller it presents; the walk stops where there is
 * nothing to follow. Class names are opaque strings.
 */
module ReportClass {
  import opened Optionals

  datatype Controller =
    | Navigation(className: string, stack: seq<Controller>, presented: Option<Controller>)
    | Plain(className: string, presented: Option<Controller>)

  /** The walk stops here: an empty navigation stack, or nothing presented. */
  predicate IsLeaf(c: Controller) {
    match c
    case Navigation(_, stack, _) => |stack| == 0
    case Plain(_, presented) => presented.None?
  }

  /** `b` is `a` or lies on the path the walk takes from `a`. */
  ghost predicate Reaches(a: Controller, b: Controller)
    decreases a
  {
    a == b ||
    match a
    case Navigation(_, stack, _) => |stack| > 0 && Reaches(stack[|stack| - 1], b)
    case Plain(_, presented) => presented.Some? && Reaches(presented.value, b)
  }

  /** `searchReportClass(_:)`: always finds a controller, a leaf on the walk. */
  function SearchReportClass(c: Controller): (r: Option<Controller>)
    ensures r.Some?
    ensures IsLeaf(r.value)
    ensures Reaches(c, r.value)
    decreases c
  {
    match c
    case Navigation(_, stack, _) =>
      if |stack| > 0 then SearchReportClass(stack[|stack| - 1]) else Some(c)
    case Plain(_, presented) =>
      if presented.Some? then SearchReportClass(presented.value) else Some(c)
  }

  /** `getReportClassName()`: absent only when the window has no root controller. */
  function GetReportClassName(root: Option<Controller>): (name: Option<string>)
    ensures name.Some? <==> root.Some?
    ensures root.Some? ==> exists leaf :: Reaches(root.value, leaf) && IsLeaf(leaf) && name.value == leaf.className
  {
    match root
    case None => None
    case Some(c) => Some(SearchReportClass(c).value.className)
  }

  /** The walk has exactly one end: the leaf it reaches is the one the search returns. */
  lemma {:induction false} SearchFindsTheLeaf(c: Controller, leaf: Controller)
    requires Reaches(c, leaf) && IsLeaf(leaf)
    ensures SearchReportClass(c) == Some(leaf)
    decreases c
  {
    if c != leaf {
      match c
      case Navigation(_, stack, _) =>
        SearchFindsTheLeaf(stack[|stack| - 1], leaf);
      case Plain(_, presented) =>
        SearchFindsTheLeaf(presented.value, leaf);
    }
  }

  /** A navigation controller's own presented controller is never followed. */
  lemma NavigationPresentedIgnored(name: string, stack: seq<Controller>, p: Option<Controller>, q: Option<Controller>)
    ensures |stack| > 0 ==> SearchReportClass(Navigation(name, stack, p)) == SearchReportClass(Navigation(name, stack, q))
    ensures |stack| == 0 ==> SearchReportClass(Navigation(name, stack, p)) == Some(Navigation(name, stack, p))
  {
  }
}

=== FILE: trimming.dfy ===
/**
 * `trimmingCharacters(in: .whitespacesAndNewlines)`. The character class is
 * abstract: `ws` says which characters count as white space or line breaks.
 */
module Trimming {

  /** `s[i..j]` is `s` with all leading and trailing white space removed. */
  ghost predicate TrimmedAt(s: string, ws: char -> bool, i: int, j: int) {
    && 0 <= i <= j <= |s|
    && (forall k :: 0 <= k < i ==> ws(s[k]))
    && (forall k :: j <= k < |s| ==> ws(s[k]))
    && (i < j ==> !ws(s[i]) && !ws(s[j - 1]))
  }

  /** `r` is a trimming of `s`. */
  ghost predicate IsTrimOf(r: string, s: string, ws: char -> bool) {
    exists i, j :: TrimmedAt(s, ws, i, j) && r == s[i..j]
  }

  /** Number of leading white-space characters. */
  function LeadingSpace(s: string, ws: char -> bool): (n: nat)
    ensures n <= |s|
    ensures forall k :: 0 <= k < n ==> ws(s[k])
    ensures n < |s| ==> !ws(s[n])
  {
    if s == [] || !ws(s[0]) then 0 else 1 + LeadingSpace(s[1..], ws)
  }

  /** End of the text in `s[lo..hi]` once trailing white space is dropped. */
  function TextEnd(s: string, ws: char -> bool, lo: nat, hi: nat): (e: nat)
    requires lo <= hi <= |s|
    ensures lo <= e <= hi
    ensures forall k :: e <= k < hi ==> ws(s[k])
    ensures lo < e ==> !ws(s[e - 1])
    decreases hi - lo
  {
    if hi == lo || !ws(s[hi - 1]) then hi else TextEnd(s, ws, lo, hi - 1)
  }

  function Trim(s: string, ws: char -> bool): (r: string)
    ensures IsTrimOf(r, s, ws)
  {
    var i := LeadingSpace(s, ws);
    var j := TextEnd(s, ws, i, |s|);
    assert TrimmedAt(s, ws, i, j);
    s[i..j]
  }

  /** A string has exactly one trimming. */
  lemma TrimUnique(s: string, ws: char -> bool, r1: string, r2: string)
    requires IsTrimOf(r1, s, ws) && IsTrimOf(r2, s, ws)
    ensures r1 == r2
  {
  }

  /** Trimming is the identity on an already trimmed string. */
  lemma TrimIdempotent(s: string, ws: char -> bool)
    ensures Trim(Trim(s, ws), ws) == Trim(s, ws)
  {
  }
}
